=== FILE: README.md ===
# 9-DOF IMU driver core, modelled in Dafny

This project models the core of a Python driver stack for a 9-degree-of-freedom
IMU board. The board carries an L3GD20 gyroscope and an LSM303 accelerometer
and magnetometer, both on an I²C bus. The model covers four things:

- **Decoding the sensors' 6-byte register bursts** (module `Codec`, used by
  `L3DG20` and `LSM303`):
  - gyroscope and accelerometer are little-endian signed 16-bit;
  - the magnetometer is big-endian;
  - the accelerometer is shifted down to 12 bits;
  - the gyroscope has its bias subtracted and is scaled to rad/s.
- **The control-register writes** of each sensor's enable, range,
  resolution and gain settings:
  - the bus is an append-only log of transactions (module `Bus`);
  - a register's value is the last byte written to it.
- **The shared calibration routine** (module `Calibration`):
  - it collects at most 5000 readings;
  - it stops at a reading more than five times the magnitude of the previous one;
  - it records the per-axis mean as the bias and the per-axis population
    variance as the noise.
- **The IMU facade** (module `Imu`):
  - it uses the magnetometer-free filter update while the magnetometer is
    uncalibrated, and the magnetometer-assisted one otherwise;
  - it reports pitch, roll and heading.

The fusion filter is a parameter. Its two update steps act on a state whose
internals are abstract.

Three places where the code does not do what it evidently means are modelled
twice (module `AsWritten` and "## Findings" below):

1. the outlier test indexes past the end of the list;
2. the statistics are taken per reading instead of per axis;
3. the zero-bias test compares with a tuple that no stored bias ever equals.

The other modules use the corrected behaviour.

Two details of the code shape the model:

- `calibrate` reads a reading before it tests it, so an outlier is read and then
  discarded. A run that stops at an outlier below the 5000 cap has taken
  exactly one reading more than it kept (`Calibration.Collect`).
- Only the gyroscope's `read_raw` subtracts a bias. The accelerometer and
  magnetometer `read` return the decoded counts unchanged.

## Model

| member | source | states |
|---|---|---|
| `Bus.Write` | L3DG20/L3DG20.py:87-91 | a register write appends exactly that `Write8` transaction; afterwards the register reads back the byte written and every other register of every device keeps its value |
| `Bus.Read` | L3DG20/L3DG20.py:98 | a burst read appends one read transaction and changes no register |
| `Codec.Int16` | L3DG20/L3DG20.py:99 | the decoded word is a signed 16-bit value congruent to hi·256+lo modulo 2^16, negative exactly when the top bit of the high byte is set |
| `Codec.Unpack3` | LSM303/LSM303.py:104 | a burst decodes exactly when it is 6 bytes long, otherwise it fails as `struct.error`; every decoded count is in [-32768, 32767] |
| `Codec.UnpackPack` | L3DG20/L3DG20.py:98-99 | decoding the packing of any signed 16-bit triple gives the triple back, in either byte order |
| `Codec.PackUnpack` | LSM303/LSM303.py:103-104 | every 6-byte burst is the packing of its own decoding, so decoding loses no information |
| `Codec.SwapOrder` | LSM303/LSM303.py:79-104 | little-endian decoding of a burst equals big-endian decoding of the burst with each byte pair swapped |
| `L3DG20.ParseRangeName` | L3DG20/L3DG20.py:31-37 | the rate tables accept exactly the three range names, and each name selects its own range |
| `L3DG20.RateByte` | L3DG20/L3DG20.py:35-37 | the CTRL_REG4 byte for a range is 0x00, 0x10 or 0x20; only bits 4-5 can be set, and they hold the range code |
| `L3DG20.RateByteInjective` | L3DG20/L3DG20.py:91 | distinct ranges put distinct bytes into CTRL_REG4 |
| `L3DG20.Enable` | L3DG20/L3DG20.py:83-88 | CTRL_REG1 is first cleared, then left at 0x0F (power-down bit and the three axis bits set); no other register changes |
| `L3DG20.SetRate` | L3DG20/L3DG20.py:90-91 | an unknown rate name fails with KeyError and writes nothing; a known one appends the write of that range's byte to CTRL_REG4 and touches no other register |
| `L3DG20.New` | L3DG20/L3DG20.py:71-81 | construction succeeds exactly for a known rate name; the gyroscope starts with zero bias and variance; the bus sees `enable`'s two writes and then, only when the rate is not 250 dps, `set_rate`'s CTRL_REG4 write and nothing else; an unknown name leaves only the enable writes |
| `L3DG20.ReadRaw` | L3DG20/L3DG20.py:93-101 | one 6-byte burst from 0xA8 (OUT_X_L with auto-increment) is read; it fails exactly for a wrong-length burst; adding the bias back gives the little-endian decoding |
| `L3DG20.ReadRawRoundTrip` | L3DG20/L3DG20.py:77-101 | with the initial zero bias, reading the burst a triple packs to yields that triple |
| `L3DG20.Factor` | L3DG20/L3DG20.py:111 | the scale factor (sensitivity times degrees-to-radians) is positive for every range |
| `L3DG20.ReadRates` | L3DG20/L3DG20.py:103-111 | the rates keep the sign of each raw axis, zero included, and are all the raw values scaled by one common factor |
| `LSM303.AccelEnable` | LSM303/LSM303.py:69-71 | one write of 0x27 to CTRL_REG1_A is appended; the register holds it and nothing else changes |
| `LSM303.SetResolution` | LSM303/LSM303.py:60-67 | one write to CTRL_REG4_A is appended, 0x08 in high resolution and 0x00 otherwise; the register holds it and nothing else changes |
| `LSM303.NewAccelerometer` | LSM303/LSM303.py:52-58 | the accelerometer starts uncalibrated; enable's write to CTRL_REG1_A comes first, then the resolution write to CTRL_REG4_A; both registers end with those values and no other register changes |
| `LSM303.Shift4` | LSM303/LSM303.py:82 | the shift is floor division by 16, and maps signed 16-bit values into [-2048, 2047] |
| `LSM303.AccelRead` | LSM303/LSM303.py:73-84 | one 6-byte burst from 0xA8 is read; each axis is the floor of its little-endian count divided by 16, a 12-bit value |
| `LSM303.AccelReadIgnoresCalibration` | LSM303/LSM303.py:73-84 | the accelerometer reading depends on the bytes read only, never on the stored calibration |
| `LSM303.MagEnable` | LSM303/LSM303.py:95-97 | one write of 0x00 (continuous conversion) to MR_REG_M is appended; the register holds it and nothing else changes |
| `LSM303.NewMagnetometer` | LSM303/LSM303.py:90-93 | the magnetometer starts with zero bias and variance; its one transaction is the MR_REG_M := 0x00 enable write, and no other register changes |
| `LSM303.MagRead` | LSM303/LSM303.py:99-106 | one 6-byte burst from 0x03 without the auto-increment bit is read and decoded big-endian; the result packs back to exactly the bytes read |
| `LSM303.GainBytes` | LSM303/LSM303.py:39-45 | the gain constants are exactly the multiples of 0x20 from 0x20 to 0xE0, one per gain |
| `LSM303.SetMagGain` | LSM303/LSM303.py:108-119 | one write of the given gain byte to CRB_REG_M is appended; the register holds it and nothing else changes |
| `LSM303.SetDefaultMagGain` | LSM303/LSM303.py:108-111 | called without an argument, `set_mag_gain` appends the write of the ±1.3 gauss gain byte 0x20 to CRB_REG_M, and nothing else changes |
| `Calibration.StopFrom` | I2C_Sensor.py:32-36 | from a chained prefix, collection stops at the 5000 cap, at the end of the readings, or just before an outlier, and stays chained |
| `Calibration.AcceptedCount` | I2C_Sensor.py:32-36 | at most 5000 readings are accepted; the first is always accepted; the accepted prefix is outlier-free; a stop below the caps is at an outlier |
| `Calibration.AcceptedCountUnique` | I2C_Sensor.py:32-36 | any count that obeys the cap, accepts the first reading, is outlier-free and stops at an outlier is the accepted count |
| `Calibration.OutlierExcluded` | I2C_Sensor.py:34-36 | the first outlier after an outlier-free prefix ends collection and is not kept |
| `Calibration.Collect` | I2C_Sensor.py:30-36 | the loop keeps exactly the accepted prefix, with the first reading and no outlier; it has taken one reading more than it kept exactly when it stopped short of both the cap and the end of the readings, that is, at an outlier |
| `Calibration.VarianceNonNegative` | I2C_Sensor.py:39 | the per-axis population variance is never negative |
| `Calibration.ConstantReadings` | I2C_Sensor.py:38-39 | calibrating on a constant reading gives that reading as bias and zero variance |
| `Calibration.ZeroVarianceAxis` | I2C_Sensor.py:39 | an axis with zero variance has the same count in every reading |
| `Calibration.VarianceZeroIffConstant` | I2C_Sensor.py:39 | the variance vector is zero exactly when all readings are equal |
| `Calibration.Statistics` | I2C_Sensor.py:38-39 | the two-pass loops compute the per-axis mean as the bias and the per-axis population variance (`VarianceVec`, which `VarianceIsPopulation` shows is Σ(x − mean)²/n) as the variance |
| `Calibration.VarianceIsPopulation` | I2C_Sensor.py:39 | the variance is numpy's population variance (ddof = 0): the sum of squared deviations from the mean, divided by the number of readings |
| `Calibration.Calibrate` | I2C_Sensor.py:26-39 | a run over a non-empty stream stores the statistics of the accepted prefix; at most 5000 readings are taken, and one more than accepted exactly when it stopped at an outlier |
| `Imu.SmartUpdate` | IMU_9DOF.py:22-27 | reads accelerometer then gyroscope, and the magnetometer only when its bias is nonzero; takes the matching filter step on the decoded readings; leaves the sensors as they were |
| `Imu.Orientation` | IMU_9DOF.py:29-31 | the reported pitch, roll and heading, together with the filter's internals, make up the whole filter state: reporting them loses nothing and changes nothing |
| `Imu.WithMagCalibration` | I2C_Sensor.py:38-39 | calibrating the magnetometer replaces its calibration only, leaving the other sensors and the orientation as they were |
| `Imu.OrientationAfterUpdate` | IMU_9DOF.py:29-31 | after an update, the orientation is the pitch, roll and heading of the state the selected filter step returned |
| `Imu.RecalibrationTakesEffect` | IMU_9DOF.py:22-27 | after a calibration that yields a nonzero magnetometer bias, the next update reads all three sensors |
| `Imu.Create` | IMU_9DOF.py:14-20 | a new IMU has an uncalibrated accelerometer, magnetometer and gyroscope, the latter at 250 dps; the bus log gains exactly five writes, in order: the accelerometer's enable and high-resolution writes, the magnetometer's enable, and the gyroscope's two CTRL_REG1 writes; no other register changes, so the gyroscope's CTRL_REG4 keeps its power-on value, which matches 250 dps |
| `Imu.FirstUpdateIsMagFree` | IMU_9DOF.py:23-25 | the first update after construction reads only the accelerometer and the gyroscope |
| `AsWritten.PyIndex` | I2C_Sensor.py:34 | Python list indexing succeeds exactly for indices from -len to len-1, otherwise IndexError |
| `AsWritten.CollectComparing` | I2C_Sensor.py:32-36 | the collection loop comparing with `data[len(data) + offset]` fails only with IndexError, and extends the readings it was given |
| `AsWritten.CollectAsWrittenAlwaysFails` | I2C_Sensor.py:34 | as written, any run that reads a sample raises IndexError, whereas the corrected loop keeps that first sample |
| `AsWritten.LastIndexFailsOnFirstReading` | I2C_Sensor.py:34 | comparing with `data[-1]` also fails on the first reading |
| `AsWritten.LastIndexAgrees` | I2C_Sensor.py:32-36 | once the first reading is held, comparing with `data[-1]` keeps exactly the corrected accepted prefix |
| `AsWritten.BiasAsWritten` | I2C_Sensor.py:38 | the bias as written has one entry per reading, the mean of that reading's three counts |
| `AsWritten.VarianceAsWritten` | I2C_Sensor.py:39 | the variance as written has one entry per reading, the variance of that reading's three counts |
| `AsWritten.PerSampleStatistics` | I2C_Sensor.py:38-39 | three still readings (1, 0, 0) give bias [1/3, 1/3, 1/3] and noise 2/9 as written, but bias (1, 0, 0) and zero noise per axis |
| `AsWritten.MagFreeAsWritten` | IMU_9DOF.py:24 | the test as written holds only for the tuple (0, 0, 0) |
| `AsWritten.MagFreeNeverTaken` | IMU_9DOF.py:24 | neither the initial integer 0 nor a list (which `calibrate` would store once its indexing defect is fixed) passes the test as written, while the corrected test holds for a fresh IMU |

## Left out

- The I²C transport is not part of this model. Writes are appended to a log. Bytes a read returns are parameters. Device probing and bus errors other than a wrong-length burst are not modelled.
- The fusion filter is not part of this model. Its `update` and `update_nomag` steps are function parameters over an abstract state.
- `9DOF.py`, `examples/IMUtest.py`, the `gravity` and `linear_accel` stubs and the `__main__` demo loop of `IMU_9DOF.py` are left out. They are print loops and TODO stubs, with nothing to state.
- Auto-ranging (`range_up`, and the `AUTO` branch of the gyroscope's `read`) is left out. `range_up` does nothing. The branch cannot be reached, because construction with rate `AUTO` fails with KeyError in `set_rate`.
- L3DG20.ReadRates: the sensitivities and the degrees-to-radians constant are exact reals. Floating-point rounding is not modelled.
- Calibration.Collect: the readings are a finite sequence, not a device that can always be read again. A sequence that runs out also ends collection. `Calibration.Calibrate` returns an error for an empty sequence. The driver has no such case.
- Calibration.Calibrate: the outlier test uses squared magnitudes, |s|² > 25·|prev|². The code compares a reading tuple with a number, which is a TypeError in Python.
- Calibrating the gyroscope is left out. Calibration works on integer count triples, which are what the accelerometer and magnetometer `read` return. The gyroscope's `read` returns scaled floats, already bias-corrected in other units.
- Imu.SmartUpdate: when a read fails, the update returns an error and the filter state is unchanged. The reads made before the failure stay in the log. The driver instead raises an exception from inside the update.
- Imu.Orientation: it is a pure function of the IMU value, so two calls with no update in between give equal results by construction. There is no separate lemma for this.
- L3DG20.New: the `address` parameter is fixed at its default, 0x6B. The bus address does not affect what is written or read.
- LSM303.NewAccelerometer: the `address` parameter is fixed at its default, 0x19. The `hires` parameter is modelled.
- LSM303.NewMagnetometer: the `address` parameter is fixed at its default, 0x1E.
- numpy is replaced by exact definitions of the mean and population variance over rationals.

## Findings

| source | as written | input that shows it | evidently intended | confidence | as-written member | corrected member |
|---|---|---|---|---|---|---|
| I2C_Sensor.py:34 | each new reading is compared with `data[len(data)]`, one past the end of the list | any first reading: `data` is empty and `data[0]` raises IndexError; every later index is out of range too | compare with the previous accepted reading and always accept the first one | high, not executed | `AsWritten.CollectAsWrittenAlwaysFails` | `Calibration.Collect` |
| I2C_Sensor.py:38-39 | `mean` and `var` are taken over each reading, since iterating the list yields readings, not axes | three readings (1, 0, 0): bias [1/3, 1/3, 1/3] and variance [2/9, 2/9, 2/9] | per-axis bias (1, 0, 0) and variance (0, 0, 0) | high, not executed | `AsWritten.PerSampleStatistics` | `Calibration.Statistics` |
| IMU_9DOF.py:24 | the magnetometer bias is compared with the tuple `(0, 0, 0)` | a fresh magnetometer: its bias is the integer 0, so `0 == (0, 0, 0)` is false; as written `calibrate` raises at I2C_Sensor.py:34 before it stores a bias, so the bias stays 0; once that defect is fixed it stores a list, which never equals a tuple either | use the magnetometer-free update while the bias is zero | high, not executed | `AsWritten.MagFreeNeverTaken` | `Imu.SmartUpdate` |

=== FILE: as_written.dfy ===
/**
 The driver's calibration and mode-selection code as it is written, next
 to the corrected definitions in modules Calibration and Imu, with the
 inputs on which the two disagree.
 */
module AsWritten {
  import opened Common
  import Calibration
  import Imu
  import LSM303

  /** Python list indexing: negative indices count from the end; anything else out of range raises IndexError. */
  function PyIndex<T>(xs: seq<T>, i: int): (r: Result<T>)
    ensures r.Ok? <==> -|xs| <= i < |xs|
    ensures r.Ok? ==> r.value in xs
    ensures r.Err? ==> r.error == IndexError
  {
    if 0 <= i < |xs| then Ok(xs[i])
    else if -|xs| <= i < 0 then Ok(xs[|xs| + i])
    else Err(IndexError)
  }

  /**
   The collection loop of `calibrate`, comparing each new reading with
   `data[len(data) + offset]`. As written the offset is 0, an index one past
   the end of the list; an offset of -1 compares with the last reading kept.
   The loop also ends when the readings run out.
   */
  function CollectComparing(stream: seq<Triple>, data: seq<Triple>, offset: int): (r: Result<seq<Triple>>)
    ensures r.Err? ==> r.error == IndexError
    ensures r.Ok? ==> |data| <= |r.value| && r.value[..|data|] == data
    decreases |stream|
  {
    if |data| >= Calibration.MaxSamples || |stream| == 0 then Ok(data)
    else match PyIndex(data, |data| + offset)
      case Err(e) => Err(e)
      case Ok(prev) =>
        if Calibration.Outlier(prev, stream[0]) then Ok(data)
        else
          var r := CollectComparing(stream[1..], data + [stream[0]], offset);
          assert r.Ok? ==> r.value[..|data|] == (r.value[..|data| + 1])[..|data|];
          r
  }

  /**
   As written, a calibration run that reads anything at all raises
   IndexError on its first reading, whereas the corrected loop accepts
   that reading.
   */
  lemma CollectAsWrittenAlwaysFails(stream: seq<Triple>)
    requires |stream| > 0
    ensures CollectComparing(stream, [], 0) == Err(IndexError)
    ensures |Calibration.Accepted(stream)| > 0 && Calibration.Accepted(stream)[0] == stream[0]
  {
  }

  /**
   Comparing with the last reading kept, `data[-1]`, still fails on the
   first reading; hence the corrected rule accepts the first reading
   unconditionally.
   */
  lemma LastIndexFailsOnFirstReading(stream: seq<Triple>)
    requires |stream| > 0
    ensures CollectComparing(stream, [], -1) == Err(IndexError)
  {
  }

  /**
   Once the first reading is held, comparing with `data[-1]` collects
   exactly what the corrected loop does.
   */
  lemma {:induction false} LastIndexAgrees(stream: seq<Triple>)
    requires |stream| > 0
    ensures CollectComparing(stream[1..], [stream[0]], -1) == Ok(Calibration.Accepted(stream))
  {
    assert stream[..1] == [stream[0]];
    LastIndexFrom(stream, 1);
  }

  lemma {:induction false} LastIndexFrom(stream: seq<Triple>, i: nat)
    requires 0 < i <= |stream| && i <= Calibration.MaxSamples
    requires Calibration.Chained(stream[..i])
    ensures CollectComparing(stream[i..], stream[..i], -1) == Ok(stream[..Calibration.StopFrom(stream, i)])
    decreases |stream| - i
  {
    var data := stream[..i];
    if i == |stream| || i == Calibration.MaxSamples {
    } else {
      assert stream[i..][0] == stream[i];
      assert PyIndex(data, |data| - 1) == Ok(stream[i - 1]);
      if !Calibration.Outlier(stream[i - 1], stream[i]) {
        assert stream[i..][1..] == stream[i + 1..];
        assert data + [stream[i]] == stream[..i + 1];
        LastIndexFrom(stream, i + 1);
      }
    }
  }

  /** numpy's `mean` of one reading's three counts. */
  function SampleMean(t: Triple): real
  {
    (t.x + t.y + t.z) as real / 3.0
  }

  /** numpy's `var` (population variance) of one reading's three counts. */
  function SampleVariance(t: Triple): real
  {
    var m := SampleMean(t);
    ((t.x as real - m) * (t.x as real - m) + (t.y as real - m) * (t.y as real - m) + (t.z as real - m) * (t.z as real - m)) / 3.0
  }

  /** `[mean(axis) for axis in data]`: iterating a list of readings yields readings, not axes. */
  function BiasAsWritten(data: seq<Triple>): (b: seq<real>)
    ensures |b| == |data|
    ensures forall i :: 0 <= i < |data| ==> b[i] == SampleMean(data[i])
  {
    if |data| == 0 then [] else BiasAsWritten(data[..|data| - 1]) + [SampleMean(data[|data| - 1])]
  }

  /** `[var(axis) for axis in data]`, likewise one entry per reading. */
  function VarianceAsWritten(data: seq<Triple>): (v: seq<real>)
    ensures |v| == |data|
    ensures forall i :: 0 <= i < |data| ==> v[i] == SampleVariance(data[i])
  {
    if |data| == 0 then [] else VarianceAsWritten(data[..|data| - 1]) + [SampleVariance(data[|data| - 1])]
  }

  /**
   Three identical readings (1, 0, 0): the per-axis statistics give bias
   (1, 0, 0) and no noise, while the code as written gives one third on
   every entry and a variance of two ninths on a sensor that never moved.
   */
  lemma PerSampleStatistics()
    ensures
      var data := [Triple(1, 0, 0), Triple(1, 0, 0), Triple(1, 0, 0)];
      && BiasAsWritten(data) == [1.0 / 3.0, 1.0 / 3.0, 1.0 / 3.0]
      && VarianceAsWritten(data) == [2.0 / 9.0, 2.0 / 9.0, 2.0 / 9.0]
      && Calibration.MeanVec(data) == Vec3(1.0, 0.0, 0.0)
      && Calibration.VarianceVec(data) == Zero
  {
    var data := [Triple(1, 0, 0), Triple(1, 0, 0), Triple(1, 0, 0)];
    Calibration.ConstantReadings(data, Triple(1, 0, 0));
    assert SampleVariance(Triple(1, 0, 0)) == 2.0 / 9.0;
  }

  /** The Python values a sensor's `bias` attribute can hold, and the tuple it is compared with. */
  datatype PyValue =
    | PyNum(n: real)              // an int or a float
    | PyTuple(items: seq<real>)
    | PyList(items: seq<real>)

  /** Python `==`: numbers compare by value; a list never equals a tuple. */
  predicate PyEq(a: PyValue, b: PyValue)
  {
    match (a, b)
    case (PyNum(m), PyNum(n)) => m == n
    case (PyTuple(xs), PyTuple(ys)) => xs == ys
    case (PyList(xs), PyList(ys)) => xs == ys
    case _ => false
  }

  /** The test `self.mag.bias == (0, 0, 0)` that selects the magnetometer-free update. */
  function MagFreeAsWritten(bias: PyValue): (r: bool)
    ensures r <==> bias.PyTuple? && bias.items == [0.0, 0.0, 0.0]
  {
    PyEq(bias, PyTuple([0.0, 0.0, 0.0]))
  }

  /** The bias values the driver ever stores: the integer 0 at start-up, or the list `calibrate` builds. */
  ghost predicate ReachableBias(bias: PyValue)
  {
    bias == PyNum(0.0) || exists data: seq<Triple> :: bias == PyList(BiasAsWritten(data))
  }

  /**
   As written, the magnetometer-free update is never taken: no stored bias
   equals the tuple. The corrected test takes it for a fresh IMU.
   */
  lemma MagFreeNeverTaken(bias: PyValue, imu: Imu.Imu<int>)
    requires ReachableBias(bias)
    requires imu == Imu.Create([], imu.fusion).0
    ensures !MagFreeAsWritten(bias)
    ensures Imu.MagUncalibrated(imu)
  {
  }
}

=== FILE: bus.dfy ===
/**
 The I2C bus as seen by the drivers: an append-only log of transactions.
 A register's current value is the value of the last write to it; reads
 return bytes that the model takes as parameters.
 */
module Bus {
  import opened Common

  /** Register-address bit 7 asks the device to auto-increment the address during a burst read. */
  const AutoIncrement: byte := 0x80

  datatype Txn =
    | Write8(device: byte, register: byte, value: byte)
    | ReadList(device: byte, start: byte, count: nat)

  type Log = seq<Txn>

  /** What a driver operation produced, together with the bus log after it. */
  datatype Effect<T> = Effect(result: Result<T>, log: Log)

  /** The value most recently written to `register` of `device`, if any. */
  function RegisterValue(log: Log, device: byte, register: byte): Option<byte>
    decreases |log|
  {
    if |log| == 0 then None
    else
      var t := log[|log| - 1];
      if t.Write8? && t.device == device && t.register == register then Some(t.value)
      else RegisterValue(log[..|log| - 1], device, register)
  }

  /** `log'` extends `log`: the bus log is never rewritten. */
  predicate Extends(log': Log, log: Log)
  {
    |log| <= |log'| && log'[..|log|] == log
  }

  /** No transaction after position `from` of `log` addresses `device`. */
  predicate Untouched(log: Log, from: nat, device: byte)
  {
    forall i :: from <= i < |log| ==> log[i].device != device
  }

  /** `write8(register, value)` on `device`. */
  function Write(log: Log, device: byte, register: byte, value: byte): (log': Log)
    ensures Extends(log', log) && |log'| == |log| + 1
    ensures log'[|log|] == Write8(device, register, value)
    ensures RegisterValue(log', device, register) == Some(value)
    ensures forall d, r :: (d != device || r != register) ==> RegisterValue(log', d, r) == RegisterValue(log, d, r)
  {
    var log' := log + [Write8(device, register, value)];
    assert log'[..|log|] == log;
    log'
  }

  /** `readList(start, count)` on `device`: recorded, and leaves every register as it was. */
  function Read(log: Log, device: byte, start: byte, count: nat): (log': Log)
    ensures Extends(log', log) && |log'| == |log| + 1
    ensures log'[|log|] == ReadList(device, start, count)
    ensures forall d, r :: RegisterValue(log', d, r) == RegisterValue(log, d, r)
  {
    var log' := log + [ReadList(device, start, count)];
    assert log'[..|log|] == log;
    log'
  }
}

=== FILE: calibration.dfy ===
/**
 The calibration routine shared by every sensor (`I2CSensor.calibrate`):
 collect up to 5000 successive readings while the device is held still,
 stop early at a reading whose magnitude jumps to more than five times the
 previous one, and record the per-axis mean as the bias and the per-axis
 population variance as the noise.

 Three defects of the routine as written are corrected here (the first and
 the third are also modelled as written, in module AsWritten):
 - the outlier test indexes `data[len(data)]`, which is always out of range;
   here each reading is compared with the previous accepted one, and the
   first reading is always accepted;
 - the test compares a tuple with a number; here magnitudes are compared,
   as squared norms: |s|² > 25·|prev|²;
 - mean and variance are taken over each sample instead of each axis; here
   they are per axis.

 The readings come as a sequence: the successive integer count triples
 `read()` returns. Bias and variance are exact rationals.
 */
module Calibration {
  import opened Common

  /** The most readings one calibration run collects. */
  const MaxSamples: nat := 5000

  /** Per-sensor calibration state: the bias subtracted from readings and the noise variance. */
  datatype Calib = Calib(bias: Vec3, variance: Vec3)

  /** A sensor's calibration before any run: bias and variance are both zero. */
  const Uncalibrated: Calib := Calib(Zero, Zero)

  /** A reading whose magnitude exceeds five times the previous accepted reading's. */
  predicate Outlier(prev: Triple, sample: Triple)
  {
    SqNorm(sample) > 25 * SqNorm(prev)
  }

  /** No reading after the first is an outlier with respect to its predecessor. */
  predicate Chained(data: seq<Triple>)
  {
    forall i :: 0 < i < |data| ==> !Outlier(data[i - 1], data[i])
  }

  /** Where collection stops, given that readings `0..i` have been accepted. */
  function StopFrom(stream: seq<Triple>, i: nat): (n: nat)
    requires 0 < i <= |stream| && i <= MaxSamples
    requires Chained(stream[..i])
    ensures i <= n <= |stream| && n <= MaxSamples
    ensures Chained(stream[..n])
    ensures n < |stream| && n < MaxSamples ==> Outlier(stream[n - 1], stream[n])
    decreases |stream| - i
  {
    if i == |stream| || i == MaxSamples then i
    else if Outlier(stream[i - 1], stream[i]) then i
    else
      assert stream[..i + 1] == stream[..i] + [stream[i]];
      StopFrom(stream, i + 1)
  }

  /** How many readings of `stream` one calibration run accepts. */
  function AcceptedCount(stream: seq<Triple>): (n: nat)
    ensures n <= |stream| && n <= MaxSamples
    ensures |stream| > 0 ==> n > 0
    ensures Chained(stream[..n])
    ensures n < |stream| && n < MaxSamples ==> n > 0 && Outlier(stream[n - 1], stream[n])
  {
    if |stream| == 0 then 0 else StopFrom(stream, 1)
  }

  /** The readings one calibration run accepts: a prefix of the stream. */
  function Accepted(stream: seq<Triple>): seq<Triple>
  {
    stream[..AcceptedCount(stream)]
  }

  /** A chained prefix has no outlier inside it. */
  lemma ChainedAt(stream: seq<Triple>, n: nat, j: nat)
    requires n <= |stream| && Chained(stream[..n])
    requires 0 < j < n
    ensures !Outlier(stream[j - 1], stream[j])
  {
    assert stream[..n][j - 1] == stream[j - 1] && stream[..n][j] == stream[j];
  }

  /** The stopping rule determines the accepted count: any count that is capped, chained and stopped where the rule stops is it. */
  lemma {:induction false} AcceptedCountUnique(stream: seq<Triple>, n: nat)
    requires n <= |stream| && n <= MaxSamples
    requires |stream| > 0 ==> n > 0
    requires Chained(stream[..n])
    requires n < |stream| && n < MaxSamples ==> Outlier(stream[n - 1], stream[n])
    ensures n == AcceptedCount(stream)
  {
    var m := AcceptedCount(stream);
    if n < m {
      ChainedAt(stream, m, n);
      assert false;
    } else if m < n {
      ChainedAt(stream, n, m);
      assert false;
    }
  }

  /** A reading that is an outlier ends collection and is itself left out. */
  lemma OutlierExcluded(stream: seq<Triple>, k: nat)
    requires 0 < k < |stream| && k < MaxSamples
    requires Chained(stream[..k])
    requires Outlier(stream[k - 1], stream[k])
    ensures Accepted(stream) == stream[..k]
  {
    AcceptedCountUnique(stream, k);
  }

  /**
   The collection loop of `calibrate`: read until 5000 readings are held,
   stopping at an outlier (which has been read but is not kept). `taken`
   counts the readings taken from the stream.
   */
  method Collect(stream: seq<Triple>) returns (data: seq<Triple>, taken: nat)
    ensures data == Accepted(stream)
    ensures |data| <= MaxSamples
    ensures |stream| > 0 ==> |data| > 0 && data[0] == stream[0]
    ensures forall i :: 0 < i < |data| ==> !Outlier(data[i - 1], data[i])
    ensures taken == |data| || (taken == |data| + 1 && 0 < |data| < |stream| && Outlier(data[|data| - 1], stream[|data|]))
    ensures taken == (if |data| < |stream| && |data| < MaxSamples then |data| + 1 else |data|)
  {
    data := [];
    taken := 0;
    while |data| < MaxSamples
      invariant |data| <= MaxSamples && |data| <= |stream|
      invariant data == stream[..|data|]
      invariant Chained(data)
      invariant taken == |data|
      invariant |stream| > 0 && taken > 0 ==> data[0] == stream[0]
    {
      if taken == |stream| {
        AcceptedCountUnique(stream, |data|);
        return;
      }
      var sample := stream[taken];
      taken := taken + 1;
      if |data| > 0 && Outlier(data[|data| - 1], sample) {
        AcceptedCountUnique(stream, |data|);
        return;
      }
      data := data + [sample];
    }
    AcceptedCountUnique(stream, |data|);
  }

  /** The `a` coordinate of a count triple. */
  function Count(t: Triple, a: Axis): int
  {
    match a
    case X => t.x
    case Y => t.y
    case Z => t.z
  }

  /** The sum of the `a` coordinates of `data`. */
  function Sum(data: seq<Triple>, a: Axis): int
    decreases |data|
  {
    if |data| == 0 then 0 else Sum(data[..|data| - 1], a) + Count(data[|data| - 1], a)
  }

  /**
   The sum of squared deviations of the `a` coordinates from the mean
   `s / n`, scaled by n² to stay in integers: Σ (n·x - s)².
   */
  function ScaledDev(data: seq<Triple>, a: Axis, s: int, n: int): int
    decreases |data|
  {
    if |data| == 0 then 0
    else ScaledDev(data[..|data| - 1], a, s, n) + ISq(n * Count(data[|data| - 1], a) - s)
  }

  /** The arithmetic mean along axis `a` (numpy `mean`). */
  function Mean(data: seq<Triple>, a: Axis): real
    requires |data| > 0
  {
    Sum(data, a) as real / |data| as real
  }

  /**
   The population variance along axis `a` (numpy `var`, ddof = 0):
   (1/n)·Σ (x - s/n)², which is Σ (n·x - s)² / n³.
   */
  function Variance(data: seq<Triple>, a: Axis): real
    requires |data| > 0
  {
    var n := |data|;
    ScaledDev(data, a, Sum(data, a), n) as real / (n * n * n) as real
  }

  function MeanVec(data: seq<Triple>): Vec3
    requires |data| > 0
  {
    Vec3(Mean(data, X), Mean(data, Y), Mean(data, Z))
  }

  function VarianceVec(data: seq<Triple>): Vec3
    requires |data| > 0
  {
    Vec3(Variance(data, X), Variance(data, Y), Variance(data, Z))
  }

  /** What one calibration run over `stream` yields: bias and variance of the accepted readings. */
  function CalibrationOf(stream: seq<Triple>): Result<Calib>
  {
    if |stream| == 0 then Err(InsufficientSamples)
    else Ok(Calib(MeanVec(Accepted(stream)), VarianceVec(Accepted(stream))))
  }

  lemma {:induction false} ScaledDevNonNegative(data: seq<Triple>, a: Axis, s: int, n: int)
    ensures ScaledDev(data, a, s, n) >= 0
    decreases |data|
  {
    if |data| > 0 {
      ScaledDevNonNegative(data[..|data| - 1], a, s, n);
    }
  }

  /** One coordinate off the scaled mean makes the deviation sum positive. */
  lemma {:induction false} ScaledDevPositive(data: seq<Triple>, a: Axis, s: int, n: int, k: nat)
    requires k < |data| && n * Count(data[k], a) != s
    ensures ScaledDev(data, a, s, n) > 0
    decreases |data|
  {
    var init := data[..|data| - 1];
    if k == |data| - 1 {
      ScaledDevNonNegative(init, a, s, n);
    } else {
      assert init[k] == data[k];
      ScaledDevPositive(init, a, s, n, k);
    }
  }

  lemma {:induction false} ScaledDevZero(data: seq<Triple>, a: Axis, s: int, n: int)
    requires forall i :: 0 <= i < |data| ==> n * Count(data[i], a) == s
    ensures ScaledDev(data, a, s, n) == 0
    decreases |data|
  {
    if |data| > 0 {
      var init := data[..|data| - 1];
      assert forall i :: 0 <= i < |init| ==> init[i] == data[i];
      ScaledDevZero(init, a, s, n);
    }
  }

  /** Variance is never negative. */
  lemma VarianceNonNegative(data: seq<Triple>)
    requires |data| > 0
    ensures VarianceVec(data).x >= 0.0 && VarianceVec(data).y >= 0.0 && VarianceVec(data).z >= 0.0
  {
    var n := |data|;
    ScaledDevNonNegative(data, X, Sum(data, X), n);
    ScaledDevNonNegative(data, Y, Sum(data, Y), n);
    ScaledDevNonNegative(data, Z, Sum(data, Z), n);
  }

  lemma {:induction false} SumConstant(data: seq<Triple>, c: Triple, a: Axis)
    requires forall i :: 0 <= i < |data| ==> data[i] == c
    ensures Sum(data, a) == |data| * Count(c, a)
    decreases |data|
  {
    if |data| > 0 {
      SumConstant(data[..|data| - 1], c, a);
    }
  }

  lemma ConstantAxis(data: seq<Triple>, c: Triple, a: Axis)
    requires |data| > 0
    requires forall i :: 0 <= i < |data| ==> data[i] == c
    ensures Mean(data, a) == Count(c, a) as real
    ensures Variance(data, a) == 0.0
  {
    var n := |data|;
    SumConstant(data, c, a);
    var k := Count(c, a) as real;
    assert Sum(data, a) as real == n as real * k;
    assert (n as real * k) / n as real == k;
    ScaledDevZero(data, a, Sum(data, a), n);
  }

  /** Calibrating on a constant reading yields that reading as bias and zero variance. */
  lemma ConstantReadings(data: seq<Triple>, c: Triple)
    requires |data| > 0
    requires forall i :: 0 <= i < |data| ==> data[i] == c
    ensures MeanVec(data) == ToVec3(c)
    ensures VarianceVec(data) == Zero
  {
    ConstantAxis(data, c, X);
    ConstantAxis(data, c, Y);
    ConstantAxis(data, c, Z);
  }

  /** Along one axis, a zero variance means every reading has the first reading's coordinate. */
  lemma ZeroVarianceAxis(data: seq<Triple>, a: Axis)
    requires |data| > 0
    requires Variance(data, a) == 0.0
    ensures forall i :: 0 <= i < |data| ==> Count(data[i], a) == Count(data[0], a)
  {
    var n := |data|;
    var s := Sum(data, a);
    ScaledDevNonNegative(data, a, s, n);
    assert ScaledDev(data, a, s, n) == 0;
    forall i | 0 <= i < |data|
      ensures Count(data[i], a) == Count(data[0], a)
    {
      if n * Count(data[i], a) != s {
        ScaledDevPositive(data, a, s, n, i);
      }
      if n * Count(data[0], a) != s {
        ScaledDevPositive(data, a, s, n, 0);
      }
      Cancel(n, Count(data[i], a), Count(data[0], a));
    }
  }

  /** The square of a real. */
  function RSq(d: real): (r: real)
    ensures r >= 0.0
  {
    d * d
  }

  /** Σ (x - m)² over the `a` coordinates of `data`: the squared deviations from a real centre `m`. */
  function SqDev(data: seq<Triple>, a: Axis, m: real): real
    decreases |data|
  {
    if |data| == 0 then 0.0
    else
      SqDev(data[..|data| - 1], a, m) + RSq(Count(data[|data| - 1], a) as real - m)
  }

  /** One scaled term: with n·m = s and k = n², (n·x - s)² is k times (x - m)². */
  lemma ScaledTerm(x: int, s: int, n: int, k: int, m: real)
    requires n > 0 && k == n * n && n as real * m == s as real
    ensures ISq(n * x - s) as real == k as real * RSq(x as real - m)
  {
    var nr := n as real;
    var d := x as real - m;
    assert (n * x - s) as real == nr * d;
    assert ISq(n * x - s) as real == (nr * d) * (nr * d);
    assert (nr * d) * (nr * d) == (nr * nr) * (d * d);
    assert k as real == nr * nr;
    assert RSq(d) == d * d;
  }

  /** Σ c·(x - m)²: the squared deviations from `m`, each weighted by `c`. */
  function WeightedSqDev(data: seq<Triple>, a: Axis, m: real, c: real): real
    decreases |data|
  {
    if |data| == 0 then 0.0
    else
      WeightedSqDev(data[..|data| - 1], a, m, c) + c * RSq(Count(data[|data| - 1], a) as real - m)
  }

  /** With n·m = s and k = n², each scaled integer term is k times the real one, so the sums agree. */
  lemma {:induction false} ScaledDevIsWeighted(data: seq<Triple>, a: Axis, s: int, n: int, k: int, m: real)
    requires n > 0 && k == n * n && n as real * m == s as real
    ensures ScaledDev(data, a, s, n) as real == WeightedSqDev(data, a, m, k as real)
    decreases |data|
  {
    if |data| > 0 {
      ScaledDevIsWeighted(data[..|data| - 1], a, s, n, k, m);
      ScaledTerm(Count(data[|data| - 1], a), s, n, k, m);
    }
  }

  /** A common weight factors out of the sum. */
  lemma {:induction false} WeightFactors(data: seq<Triple>, a: Axis, m: real, c: real)
    ensures WeightedSqDev(data, a, m, c) == c * SqDev(data, a, m)
    decreases |data|
  {
    if |data| > 0 {
      WeightFactors(data[..|data| - 1], a, m, c);
      Distribute(c, SqDev(data[..|data| - 1], a, m), RSq(Count(data[|data| - 1], a) as real - m));
    }
  }

  lemma Distribute(c: real, u: real, v: real)
    ensures c * u + c * v == c * (u + v)
  {
  }

  /** With n·m = s and k = n², the integer sum of scaled deviations is k times the real sum of squared deviations from m. */
  lemma {:induction false} ScaledDevIsScaledSqDev(data: seq<Triple>, a: Axis, s: int, n: int, k: int, m: real)
    requires n > 0 && k == n * n && n as real * m == s as real
    ensures ScaledDev(data, a, s, n) as real == k as real * SqDev(data, a, m)
  {
    ScaledDevIsWeighted(data, a, s, n, k, m);
    WeightFactors(data, a, m, k as real);
  }

  /**
   `Variance` is the population variance as numpy's `var` defines it: the
   mean of the squared deviations from the mean, (1/n)·Σ (x - mean)².
   */
  lemma VarianceIsPopulation(data: seq<Triple>, a: Axis)
    requires |data| > 0
    ensures Variance(data, a) == SqDev(data, a, Mean(data, a)) / |data| as real
  {
    var n := |data|;
    MeanTimesCount(Sum(data, a), n);
    ScaledDevIsScaledSqDev(data, a, Sum(data, a), n, n * n, Mean(data, a));
    CubeAsReal(n);
    CancelSquare(n as real, SqDev(data, a, Mean(data, a)), ScaledDev(data, a, Sum(data, a), n) as real, (n * n * n) as real);
  }

  lemma MeanTimesCount(s: int, n: int)
    requires n > 0
    ensures n as real * (s as real / n as real) == s as real
  {
  }

  lemma CubeAsReal(n: int)
    ensures (n * n) as real == n as real * n as real
    ensures (n * n * n) as real == (n as real * n as real) * n as real
  {
  }

  lemma CancelSquare(nr: real, q: real, t: real, c: real)
    requires nr > 0.0 && t == (nr * nr) * q && c == (nr * nr) * nr
    ensures t / c == q / nr
  {
    assert t == (q / nr) * c;
  }

  lemma Cancel(n: int, u: int, v: int)
    requires n > 0 && n * u == n * v
    ensures u == v
  {
  }

  /** The variance is zero on every axis exactly when all readings are equal. */
  lemma VarianceZeroIffConstant(data: seq<Triple>)
    requires |data| > 0
    ensures VarianceVec(data) == Zero <==> forall i :: 0 <= i < |data| ==> data[i] == data[0]
  {
    if forall i :: 0 <= i < |data| ==> data[i] == data[0] {
      ConstantReadings(data, data[0]);
    }
    if VarianceVec(data) == Zero {
      ZeroVarianceAxis(data, X);
      ZeroVarianceAxis(data, Y);
      ZeroVarianceAxis(data, Z);
    }
  }

  /**
   Bias and variance of `data` as numpy computes them: a first pass sums
   each axis to get the mean, a second sums the squared deviations from it.
   */
  method Statistics(data: seq<Triple>) returns (bias: Vec3, variance: Vec3)
    requires |data| > 0
    ensures bias == MeanVec(data)
    ensures variance == VarianceVec(data)
  {
    var n := |data|;
    var sx, sy, sz := 0, 0, 0;
    var i := 0;
    while i < n
      invariant 0 <= i <= n
      invariant sx == Sum(data[..i], X) && sy == Sum(data[..i], Y) && sz == Sum(data[..i], Z)
    {
      assert data[..i + 1][..i] == data[..i];
      sx, sy, sz := sx + data[i].x, sy + data[i].y, sz + data[i].z;
      i := i + 1;
    }
    assert data[..i] == data;
    bias := Vec3(sx as real / n as real, sy as real / n as real, sz as real / n as real);
    var dx, dy, dz := 0, 0, 0;
    i := 0;
    while i < n
      invariant 0 <= i <= n
      invariant dx == ScaledDev(data[..i], X, sx, n)
      invariant dy == ScaledDev(data[..i], Y, sy, n)
      invariant dz == ScaledDev(data[..i], Z, sz, n)
    {
      assert data[..i + 1][..i] == data[..i];
      dx := dx + ISq(n * data[i].x - sx);
      dy := dy + ISq(n * data[i].y - sy);
      dz := dz + ISq(n * data[i].z - sz);
      i := i + 1;
    }
    assert data[..i] == data;
    var n3 := (n * n * n) as real;
    variance := Vec3(dx as real / n3, dy as real / n3, dz as real / n3);
  }

  /**
   `calibrate`: collect, then compute bias and variance. A run that
   collects nothing fails with InsufficientSamples.
   */
  method Calibrate(stream: seq<Triple>) returns (r: Result<Calib>, taken: nat)
    ensures r == CalibrationOf(stream)
    ensures r.Err? <==> |stream| == 0
    ensures taken <= |stream| && taken <= MaxSamples
    ensures r.Ok? ==> taken == (if AcceptedCount(stream) < |stream| && AcceptedCount(stream) < MaxSamples then AcceptedCount(stream) + 1 else AcceptedCount(stream))
  {
    var data;
    data, taken := Collect(stream);
    if |data| == 0 {
      return Err(InsufficientSamples), taken;
    }
    var bias, variance := Statistics(data);
    r := Ok(Calib(bias, variance));
  }
}

=== FILE: codec.dfy ===
/**
 Decoding of 6-byte register bursts into three signed 16-bit counts, as
 `struct.unpack('<hhh', raw)` (little-endian) and `struct.unpack('>hhh', raw)`
 (big-endian) do, with the packing that inverts it.
 */
module Codec {
  import opened Common

  datatype ByteOrder = LittleEndian | BigEndian

  predicate IsInt16(v: int)
  {
    -0x8000 <= v < 0x8000
  }

  predicate IsInt16Triple(t: Triple)
  {
    IsInt16(t.x) && IsInt16(t.y) && IsInt16(t.z)
  }

  /** The two's-complement value of the 16-bit word `hi:lo`. */
  function Int16(hi: byte, lo: byte): (v: int)
    ensures IsInt16(v)
    ensures (v + 0x10000) % 0x10000 == hi * 0x100 + lo
    ensures v < 0 <==> hi >= 0x80
  {
    var u := hi * 0x100 + lo;
    if u >= 0x8000 then u - 0x10000 else u
  }

  /** The high byte of `v` in 16-bit two's complement. */
  function HighByte(v: int): byte
    requires IsInt16(v)
  {
    (v % 0x10000) / 0x100
  }

  /** The low byte of `v` in 16-bit two's complement. */
  function LowByte(v: int): byte
    requires IsInt16(v)
  {
    (v % 0x10000) % 0x100
  }

  /** Splitting a 16-bit value into bytes and joining them gives the value back. */
  lemma JoinSplit(v: int)
    requires IsInt16(v)
    ensures Int16(HighByte(v), LowByte(v)) == v
  {
    var u := v % 0x10000;
    assert HighByte(v) * 0x100 + LowByte(v) == u;
  }

  /** Joining two bytes and splitting the value gives the bytes back. */
  lemma SplitJoin(hi: byte, lo: byte)
    ensures HighByte(Int16(hi, lo)) == hi && LowByte(Int16(hi, lo)) == lo
  {
    var u := hi * 0x100 + lo;
    assert Int16(hi, lo) % 0x10000 == u;
    assert u / 0x100 == hi;
    assert u % 0x100 == lo;
  }

  /** The `i`-th 16-bit field of a 6-byte burst. */
  function Field(raw: seq<byte>, i: nat, order: ByteOrder): int
    requires |raw| == 6 && i < 3
  {
    match order
    case LittleEndian => Int16(raw[2 * i + 1], raw[2 * i])
    case BigEndian => Int16(raw[2 * i], raw[2 * i + 1])
  }

  /** `struct.unpack('<hhh', raw)` or `struct.unpack('>hhh', raw)`. */
  function Unpack3(raw: seq<byte>, order: ByteOrder): (r: Result<Triple>)
    ensures r.Ok? <==> |raw| == 6
    ensures r.Err? ==> r.error == StructError
    ensures r.Ok? ==> IsInt16Triple(r.value)
  {
    if |raw| != 6 then Err(StructError)
    else Ok(Triple(Field(raw, 0, order), Field(raw, 1, order), Field(raw, 2, order)))
  }

  /** The two bytes of `v` in `order`. */
  function Pack1(v: int, order: ByteOrder): seq<byte>
    requires IsInt16(v)
  {
    match order
    case LittleEndian => [LowByte(v), HighByte(v)]
    case BigEndian => [HighByte(v), LowByte(v)]
  }

  /** `struct.pack('<hhh', ...)` or `struct.pack('>hhh', ...)`: the burst a device sends for `t`. */
  function Pack3(t: Triple, order: ByteOrder): (raw: seq<byte>)
    requires IsInt16Triple(t)
    ensures |raw| == 6
  {
    Pack1(t.x, order) + Pack1(t.y, order) + Pack1(t.z, order)
  }

  /** Decoding a packed triple gives the triple back. */
  lemma {:induction false} UnpackPack(t: Triple, order: ByteOrder)
    requires IsInt16Triple(t)
    ensures Unpack3(Pack3(t, order), order) == Ok(t)
  {
    var raw := Pack3(t, order);
    JoinSplit(t.x);
    JoinSplit(t.y);
    JoinSplit(t.z);
    assert Field(raw, 0, order) == t.x;
    assert Field(raw, 1, order) == t.y;
    assert Field(raw, 2, order) == t.z;
  }

  /** The bytes of one field, packed again, are the bytes the field was read from. */
  lemma {:induction false} PackField(raw: seq<byte>, i: nat, order: ByteOrder)
    requires |raw| == 6 && i < 3
    ensures Pack1(Field(raw, i, order), order) == raw[2 * i..2 * i + 2]
  {
    match order
    case LittleEndian => SplitJoin(raw[2 * i + 1], raw[2 * i]);
    case BigEndian => SplitJoin(raw[2 * i], raw[2 * i + 1]);
  }

  /** Every 6-byte burst is the packing of its own decoding: decoding loses nothing. */
  lemma {:induction false} PackUnpack(raw: seq<byte>, order: ByteOrder)
    requires |raw| == 6
    ensures Pack3(Unpack3(raw, order).value, order) == raw
  {
    PackField(raw, 0, order);
    PackField(raw, 1, order);
    PackField(raw, 2, order);
    assert raw == raw[0..2] + raw[2..4] + raw[4..6];
  }

  /** Exchanges the two bytes of each 16-bit field. */
  function SwapPairs(raw: seq<byte>): (s: seq<byte>)
    requires |raw| == 6
    ensures |s| == 6
  {
    [raw[1], raw[0], raw[3], raw[2], raw[5], raw[4]]
  }

  /** Little-endian decoding is big-endian decoding of the pair-swapped burst. */
  lemma SwapOrder(raw: seq<byte>)
    requires |raw| == 6
    ensures Unpack3(SwapPairs(raw), BigEndian) == Unpack3(raw, LittleEndian)
  {
  }
}

=== FILE: common.dfy ===
/**
 Shared value types of the 9-DOF driver model: the error taxonomy, the
 Result/Option wrappers, integer count triples as unpacked from a register
 burst, and real-valued 3-vectors for corrected or scaled readings.
 */
module Common {

  /** The exceptions the drivers can raise, by kind. */
  datatype Error =
    | StructError          // struct.unpack given a buffer of the wrong length
    | KeyError             // a rate name missing from the rate table
    | IndexError           // a list index out of range
    | InsufficientSamples  // a calibration run that collected nothing

  datatype Result<T> = Ok(value: T) | Err(error: Error)

  datatype Option<T> = None | Some(value: T)

  /** A triple of signed register counts, as `struct.unpack('hhh', ...)` returns it. */
  datatype Triple = Triple(x: int, y: int, z: int)

  /** A real 3-vector: a bias-corrected or scaled reading, a bias, or a variance. */
  datatype Vec3 = Vec3(x: real, y: real, z: real)

  /** A byte on the bus: a register address, a register value or a burst byte. */
  type byte = b: int | 0 <= b < 0x100

  datatype Axis = X | Y | Z

  const Zero: Vec3 := Vec3(0.0, 0.0, 0.0)

  function ToVec3(t: Triple): Vec3
  {
    Vec3(t.x as real, t.y as real, t.z as real)
  }

  function Sub(u: Vec3, v: Vec3): Vec3
  {
    Vec3(u.x - v.x, u.y - v.y, u.z - v.z)
  }

  function Add(u: Vec3, v: Vec3): Vec3
  {
    Vec3(u.x + v.x, u.y + v.y, u.z + v.z)
  }

  function Scale(k: real, v: Vec3): Vec3
  {
    Vec3(k * v.x, k * v.y, k * v.z)
  }

  function ISq(n: int): (r: int)
    ensures r >= 0
    ensures r > 0 <==> n != 0
  {
    n * n
  }

  /** The squared Euclidean norm of a count triple, |t|². */
  function SqNorm(t: Triple): int
  {
    ISq(t.x) + ISq(t.y) + ISq(t.z)
  }
}

=== FILE: imu.dfy ===
/**
 The IMU facade (`IMU_9DOF.IMU`): owns the three sensors and the fusion
 filter's state, chooses the magnetometer-free or the magnetometer-assisted
 update on every call, and reports pitch, roll and heading.

 The fusion filter itself is not part of this model: its two update steps
 are parameters (a `Filter`), acting on a state whose internals `Q` are
 left abstract.

 One defect is corrected here: the driver tests `self.mag.bias == (0, 0, 0)`,
 which is never true of the integer 0 the sensor starts with, and would
 not be true of the list a calibration stores either, were `calibrate` to
 get that far (module AsWritten). Here a magnetometer counts
 as uncalibrated when its bias is the zero vector, as the method's
 docstring intends.
 */
module Imu {
  import opened Common
  import opened Bus
  import Calibration
  import L3DG20
  import LSM303

  /** The fusion filter's state: the angles it reports, and whatever else it keeps. */
  datatype Fusion<Q> = Fusion(pitch: real, roll: real, heading: real, internal: Q)

  /** The filter's update steps: with (accel, gyro, mag) and without the magnetometer. */
  datatype Filter<!Q> = Filter(
    update: (Fusion<Q>, Vec3, Vec3, Vec3) -> Fusion<Q>,
    updateNoMag: (Fusion<Q>, Vec3, Vec3) -> Fusion<Q>)

  datatype Imu<Q> = Imu(
    accel: LSM303.Accelerometer,
    mag: LSM303.Magnetometer,
    gyro: L3DG20.Gyroscope,
    fusion: Fusion<Q>)

  /** The magnetometer has not been calibrated: its bias is the zero vector. */
  predicate MagUncalibrated<Q>(imu: Imu<Q>)
  {
    imu.mag.cal.bias == Zero
  }

  /** The three burst reads an update can make. */
  const AccelBurst: Txn := ReadList(LSM303.AccelAddress, 0xA8, 6)
  const GyroBurst: Txn := ReadList(L3DG20.Address, 0xA8, 6)
  const MagBurst: Txn := ReadList(LSM303.MagAddress, 0x03, 6)

  /**
   `smart_update`: read the accelerometer, then the gyroscope, and, only when
   the magnetometer has a bias, the magnetometer; then advance the filter by
   the matching update. A malformed burst fails the call with the filter
   state unchanged; the reads already made stay in the log.
   */
  function SmartUpdate<Q>(imu: Imu<Q>, f: Filter<Q>, log: Log, accelRaw: seq<byte>, gyroRaw: seq<byte>, magRaw: seq<byte>): (e: Effect<Imu<Q>>)
    ensures e.result.Ok? <==> |accelRaw| == 6 && |gyroRaw| == 6 && (MagUncalibrated(imu) || |magRaw| == 6)
    ensures e.log == log + [AccelBurst]
      + (if |accelRaw| != 6 then [] else [GyroBurst] + (if |gyroRaw| != 6 || MagUncalibrated(imu) then [] else [MagBurst]))
    ensures MagUncalibrated(imu) ==> Untouched(e.log, |log|, LSM303.MagAddress)
    ensures e.result.Ok? ==> e.result.value.accel == imu.accel && e.result.value.mag == imu.mag && e.result.value.gyro == imu.gyro
    ensures e.result.Ok? ==>
      var a := ToVec3(LSM303.AccelRead(imu.accel, log, accelRaw).result.value);
      var g := L3DG20.ReadRates(imu.gyro, log, gyroRaw).result.value;
      if MagUncalibrated(imu) then e.result.value.fusion == f.updateNoMag(imu.fusion, a, g)
      else e.result.value.fusion == f.update(imu.fusion, a, g, ToVec3(LSM303.MagRead(imu.mag, log, magRaw).result.value))
  {
    var ea := LSM303.AccelRead(imu.accel, log, accelRaw);
    var eg := L3DG20.ReadRates(imu.gyro, ea.log, gyroRaw);
    if ea.result.Err? then Effect(Err(ea.result.error), ea.log)
    else if eg.result.Err? then Effect(Err(eg.result.error), eg.log)
    else if MagUncalibrated(imu) then
      Effect(Ok(imu.(fusion := f.updateNoMag(imu.fusion, ToVec3(ea.result.value), eg.result.value))), eg.log)
    else
      var em := LSM303.MagRead(imu.mag, eg.log, magRaw);
      if em.result.Err? then Effect(Err(em.result.error), em.log)
      else Effect(Ok(imu.(fusion := f.update(imu.fusion, ToVec3(ea.result.value), eg.result.value, ToVec3(em.result.value)))), em.log)
  }

  /**
   `orientation`: pitch, roll and heading, read off the filter state. The
   angles it reports, with the filter's internals, are the whole state.
   */
  function Orientation<Q>(imu: Imu<Q>): (r: (real, real, real))
    ensures imu.fusion == Fusion(r.0, r.1, r.2, imu.fusion.internal)
  {
    (imu.fusion.pitch, imu.fusion.roll, imu.fusion.heading)
  }

  /** Storing a magnetometer calibration; nothing else of the IMU changes. */
  function WithMagCalibration<Q>(imu: Imu<Q>, cal: Calibration.Calib): (r: Imu<Q>)
    ensures r.mag.cal == cal && r.accel == imu.accel && r.gyro == imu.gyro
    ensures Orientation(r) == Orientation(imu)
  {
    imu.(mag := LSM303.Magnetometer(cal))
  }

  /**
   The orientation reported after an update is the one the selected filter
   step produced, and the mode is chosen from the magnetometer bias at the
   time of the call.
   */
  lemma OrientationAfterUpdate<Q>(imu: Imu<Q>, f: Filter<Q>, log: Log, accelRaw: seq<byte>, gyroRaw: seq<byte>, magRaw: seq<byte>)
    requires |accelRaw| == 6 && |gyroRaw| == 6 && (MagUncalibrated(imu) || |magRaw| == 6)
    ensures
      var a := ToVec3(LSM303.AccelRead(imu.accel, log, accelRaw).result.value);
      var g := L3DG20.ReadRates(imu.gyro, log, gyroRaw).result.value;
      var next := if MagUncalibrated(imu) then f.updateNoMag(imu.fusion, a, g)
        else f.update(imu.fusion, a, g, ToVec3(LSM303.MagRead(imu.mag, log, magRaw).result.value));
      Orientation(SmartUpdate(imu, f, log, accelRaw, gyroRaw, magRaw).result.value) == (next.pitch, next.roll, next.heading)
  {
  }

  /**
   Recalibrating the magnetometer takes effect on the next update: once a
   calibration run yields a nonzero bias, the following `smart_update`
   reads the magnetometer and takes the assisted step.
   */
  lemma RecalibrationTakesEffect<Q>(imu: Imu<Q>, stream: seq<Triple>, f: Filter<Q>, log: Log, accelRaw: seq<byte>, gyroRaw: seq<byte>, magRaw: seq<byte>)
    requires Calibration.CalibrationOf(stream).Ok?
    requires Calibration.CalibrationOf(stream).value.bias != Zero
    requires |accelRaw| == 6 && |gyroRaw| == 6 && |magRaw| == 6
    ensures
      var imu' := WithMagCalibration(imu, Calibration.CalibrationOf(stream).value);
      var e := SmartUpdate(imu', f, log, accelRaw, gyroRaw, magRaw);
      && e.result.Ok?
      && e.log == log + [AccelBurst, GyroBurst, MagBurst]
  {
  }

  /**
   The IMU constructor: the filter's initial state, then an accelerometer
   in high-resolution mode, a magnetometer and a 250 dps gyroscope, each
   enabled on the bus in that order.
   */
  function Create<Q>(log: Log, fusion: Fusion<Q>): (r: (Imu<Q>, Log))
    ensures MagUncalibrated(r.0) && r.0.fusion == fusion
    ensures r.0.mag.cal == Calibration.Uncalibrated
    ensures r.0.gyro.rate == L3DG20.Dps250 && r.0.gyro.cal == Calibration.Uncalibrated
    ensures r.0.accel.cal == Calibration.Uncalibrated
    ensures Extends(r.1, log) && |r.1| == |log| + 5
    ensures r.1 == log + [
      Write8(LSM303.AccelAddress, LSM303.CtrlReg1A, 0x27), Write8(LSM303.AccelAddress, LSM303.CtrlReg4A, 0x08),
      Write8(LSM303.MagAddress, LSM303.MrRegM, 0x00),
      Write8(L3DG20.Address, L3DG20.CtrlReg1, 0x00), Write8(L3DG20.Address, L3DG20.CtrlReg1, 0x0F)]
    ensures forall d, g ::
      && (d != LSM303.AccelAddress || (g != LSM303.CtrlReg1A && g != LSM303.CtrlReg4A))
      && (d != LSM303.MagAddress || g != LSM303.MrRegM)
      && (d != L3DG20.Address || g != L3DG20.CtrlReg1)
      ==> RegisterValue(r.1, d, g) == RegisterValue(log, d, g)
    ensures RegisterValue(r.1, LSM303.AccelAddress, LSM303.CtrlReg1A) == Some(0x27)
    ensures RegisterValue(r.1, LSM303.AccelAddress, LSM303.CtrlReg4A) == Some(0x08)
    ensures RegisterValue(r.1, LSM303.MagAddress, LSM303.MrRegM) == Some(0x00)
    ensures RegisterValue(r.1, L3DG20.Address, L3DG20.CtrlReg1) == Some(0x0F)
    ensures RegisterValue(r.1, L3DG20.Address, L3DG20.CtrlReg4) == RegisterValue(log, L3DG20.Address, L3DG20.CtrlReg4)
  {
    var (accel, log1) := LSM303.NewAccelerometer(log, true);
    var (mag, log2) := LSM303.NewMagnetometer(log1);
    var g := L3DG20.New(log2, "250DPS");
    (Imu(accel, mag, g.result.value, fusion), g.log)
  }

  /** A freshly created IMU's first update reads only the accelerometer and the gyroscope. */
  lemma FirstUpdateIsMagFree<Q>(log: Log, fusion: Fusion<Q>, f: Filter<Q>, accelRaw: seq<byte>, gyroRaw: seq<byte>, magRaw: seq<byte>)
    requires |accelRaw| == 6 && |gyroRaw| == 6
    ensures
      var (imu, log') := Create(log, fusion);
      var e := SmartUpdate(imu, f, log', accelRaw, gyroRaw, magRaw);
      && e.result.Ok?
      && e.log == log' + [AccelBurst, GyroBurst]
  {
  }
}

=== FILE: l3dg20.dfy ===
/**
 The L3GD20 gyroscope driver (`L3DG20.Gyroscope`): power-up, full-scale
 range selection, and reading the three angular-rate axes.
 */
module L3DG20 {
  import opened Common
  import opened Bus
  import opened Codec
  import Calibration

  /** The gyroscope's bus address. */
  const Address: byte := 0x6B
  const CtrlReg1: byte := 0x20
  const CtrlReg4: byte := 0x23
  const OutXL: byte := 0x28

  /** Power-down control (bit 3) and the X, Y, Z enable bits (bits 0-2) of CTRL_REG1. */
  const PowerOn: byte := 0x08
  const AxesEnabled: byte := 0x07

  /** Degrees to radians, as the driver's float constant. */
  const DpsToRad: real := 0.017453293

  /** The full-scale ranges of the `GYRO_RATE` / `GYRO_SENSITIVITY` tables. */
  datatype Range = Dps250 | Dps500 | Dps2000

  /** The table key for `r`. */
  function RangeName(r: Range): string
  {
    match r
    case Dps250 => "250DPS"
    case Dps500 => "500DPS"
    case Dps2000 => "2000DPS"
  }

  /** Looking a name up in the rate tables; None where Python raises KeyError. */
  function ParseRange(name: string): Option<Range>
  {
    if name == "250DPS" then Some(Dps250)
    else if name == "500DPS" then Some(Dps500)
    else if name == "2000DPS" then Some(Dps2000)
    else None
  }

  /** The names the rate tables know are exactly the names of the ranges, and each names one range. */
  lemma ParseRangeName(name: string, r: Range)
    ensures ParseRange(RangeName(r)) == Some(r)
    ensures ParseRange(name) == Some(r) ==> name == RangeName(r)
  {
  }

  /** `GYRO_RATE`: the FS field code of a range. */
  function RateCode(r: Range): int
  {
    match r
    case Dps250 => 0
    case Dps500 => 1
    case Dps2000 => 2
  }

  /** `GYRO_SENSITIVITY`: degrees per second per count. */
  function Sensitivity(r: Range): real
  {
    match r
    case Dps250 => 0.00875
    case Dps500 => 0.0175
    case Dps2000 => 0.070
  }

  /** Gyroscope state: its calibration and its configured range. */
  datatype Gyroscope = Gyroscope(cal: Calibration.Calib, rate: Range)

  /** The CTRL_REG4 byte `set_rate` writes: the range code in the FS field, bits 4-5. */
  function RateByte(r: Range): (b: byte)
    ensures b == 0x00 || b == 0x10 || b == 0x20
    ensures b % 0x10 == 0 && b < 0x40
    ensures b / 0x10 == RateCode(r)
  {
    RateCode(r) * 0x10
  }

  /** Distinct ranges write distinct CTRL_REG4 values. */
  lemma RateByteInjective(r1: Range, r2: Range)
    ensures RateByte(r1) == RateByte(r2) <==> r1 == r2
  {
  }

  /**
   `enable`: write 0 to CTRL_REG1, then set the power-down bit and the
   three axis-enable bits.
   */
  function Enable(log: Log): (log': Log)
    ensures Extends(log', log) && |log'| == |log| + 2
    ensures log'[|log|] == Write8(Address, CtrlReg1, 0x00)
    ensures RegisterValue(log', Address, CtrlReg1) == Some(PowerOn + AxesEnabled)
    ensures forall d, r :: (d != Address || r != CtrlReg1) ==> RegisterValue(log', d, r) == RegisterValue(log, d, r)
  {
    var log1 := Write(log, Address, CtrlReg1, 0x00);
    Write(log1, Address, CtrlReg1, PowerOn + AxesEnabled)
  }

  /**
   `set_rate(name)`: writes the range's FS code into CTRL_REG4. An unknown
   name raises KeyError before anything is written. The stored range of
   the gyroscope is not changed, as in the driver.
   */
  function SetRate(log: Log, name: string): (r: Result<Log>)
    ensures r.Ok? <==> ParseRange(name).Some?
    ensures r.Err? ==> r.error == KeyError
    ensures r.Ok? ==> Extends(r.value, log) && |r.value| == |log| + 1
    ensures r.Ok? ==> r.value[|log|] == Write8(Address, CtrlReg4, RateByte(ParseRange(name).value))
    ensures r.Ok? ==> RegisterValue(r.value, Address, CtrlReg4) == Some(RateByte(ParseRange(name).value))
    ensures r.Ok? ==> forall d, g :: (d != Address || g != CtrlReg4) ==> RegisterValue(r.value, d, g) == RegisterValue(log, d, g)
  {
    match ParseRange(name)
    case None => Err(KeyError)
    case Some(range) => Ok(Write(log, Address, CtrlReg4, RateByte(range)))
  }

  /**
   The constructor: `enable`, zero bias and variance, then `set_rate` only
   when the requested range differs from the power-on default 250 dps.
   */
  function New(log: Log, name: string): (e: Effect<Gyroscope>)
    ensures e.result.Ok? <==> ParseRange(name).Some?
    ensures e.result.Ok? ==> e.result.value == Gyroscope(Calibration.Uncalibrated, ParseRange(name).value)
    ensures Extends(e.log, log)
    ensures |e.log| >= |log| + 2 && e.log[..|log| + 2] == Enable(log)
    ensures name == "250DPS" || e.result.Err? ==> e.log == Enable(log)
    ensures e.result.Ok? && name != "250DPS" ==> e.log == SetRate(Enable(log), name).value
    ensures RegisterValue(e.log, Address, CtrlReg1) == Some(0x0F)
    ensures name == "250DPS" ==> |e.log| == |log| + 2
    ensures name == "250DPS" ==> RegisterValue(e.log, Address, CtrlReg4) == RegisterValue(log, Address, CtrlReg4)
    ensures e.result.Ok? && name != "250DPS" ==> |e.log| == |log| + 3
    ensures e.result.Ok? ==> RegisterValue(e.log, Address, CtrlReg4) == (if name == "250DPS" then RegisterValue(log, Address, CtrlReg4) else Some(RateByte(e.result.value.rate)))
  {
    var log1 := Enable(log);
    if name == "250DPS" then Effect(Ok(Gyroscope(Calibration.Uncalibrated, Dps250)), log1)
    else match SetRate(log1, name)
      case Err(err) => Effect(Err(err), log1)
      case Ok(log2) => Effect(Ok(Gyroscope(Calibration.Uncalibrated, ParseRange(name).value)), log2)
  }

  /** The burst-read start address: OUT_X_L with the auto-increment bit. */
  const BurstStart: byte := OutXL + AutoIncrement

  /**
   `read_raw`: a 6-byte burst from OUT_X_L, decoded as three little-endian
   signed 16-bit counts, minus the bias on each axis.
   */
  function ReadRaw(g: Gyroscope, log: Log, raw: seq<byte>): (e: Effect<Vec3>)
    ensures e.log == log + [ReadList(Address, 0xA8, 6)]
    ensures e.result.Ok? <==> |raw| == 6
    ensures e.result.Ok? ==> Add(e.result.value, g.cal.bias) == ToVec3(Unpack3(raw, LittleEndian).value)
  {
    var log' := Read(log, Address, BurstStart, 6);
    match Unpack3(raw, LittleEndian)
    case Err(err) => Effect(Err(err), log')
    case Ok(t) => Effect(Ok(Sub(ToVec3(t), g.cal.bias)), log')
  }

  /** With the initial zero bias, `read_raw` of a packed triple gives the triple back. */
  lemma ReadRawRoundTrip(g: Gyroscope, log: Log, t: Triple)
    requires g.cal.bias == Zero && IsInt16Triple(t)
    ensures ReadRaw(g, log, Pack3(t, LittleEndian)).result == Ok(ToVec3(t))
  {
    UnpackPack(t, LittleEndian);
  }

  /** The factor `read` applies to every axis: sensitivity times degrees-to-radians. */
  function Factor(r: Range): (k: real)
    ensures k > 0.0
  {
    Sensitivity(r) * DpsToRad
  }

  /**
   `read`: `read_raw` scaled to rad/s. The `AUTO` branch of the driver is
   unreachable here, since a constructed gyroscope always has a table range.
   */
  function ReadRates(g: Gyroscope, log: Log, raw: seq<byte>): (e: Effect<Vec3>)
    ensures e.log == ReadRaw(g, log, raw).log
    ensures e.result.Ok? <==> ReadRaw(g, log, raw).result.Ok?
    ensures e.result.Ok? ==> SameSigns(e.result.value, ReadRaw(g, log, raw).result.value)
    ensures e.result.Ok? ==> Proportional(e.result.value, ReadRaw(g, log, raw).result.value, Factor(g.rate))
  {
    var e := ReadRaw(g, log, raw);
    match e.result
    case Err(err) => Effect(Err(err), e.log)
    case Ok(c) => Effect(Ok(Scale(Factor(g.rate), c)), e.log)
  }

  /** Each coordinate of `u` has the sign of the matching coordinate of `v`, zero included. */
  predicate SameSigns(u: Vec3, v: Vec3)
  {
    && (u.x > 0.0 <==> v.x > 0.0) && (u.x == 0.0 <==> v.x == 0.0)
    && (u.y > 0.0 <==> v.y > 0.0) && (u.y == 0.0 <==> v.y == 0.0)
    && (u.z > 0.0 <==> v.z > 0.0) && (u.z == 0.0 <==> v.z == 0.0)
  }

  /** `u` is `v` scaled by `k` on every axis. */
  predicate Proportional(u: Vec3, v: Vec3, k: real)
  {
    u.x == k * v.x && u.y == k * v.y && u.z == k * v.z
  }
}

=== FILE: lsm303.dfy ===
/**
 The LSM303 accelerometer and magnetometer drivers (`LSM303.Accelerometer`,
 `LSM303.Magnetometer`): power-up, resolution and gain selection, and
 reading the three axes of each.
 */
module LSM303 {
  import opened Common
  import opened Bus
  import opened Codec
  import Calibration

  /** Bus addresses: the 8-bit datasheet addresses shifted to 7 bits. */
  const AccelAddress: byte := 0x32 / 2
  const MagAddress: byte := 0x3C / 2

  const CtrlReg1A: byte := 0x20
  const CtrlReg4A: byte := 0x23
  const OutXLA: byte := 0x28

  const CrbRegM: byte := 0x01
  const MrRegM: byte := 0x02
  const OutXHM: byte := 0x03

  /** CTRL_REG1_A at enable: 10 Hz data rate (0x20) with the X, Y, Z axes on (0x07). */
  const AccelEnableByte: byte := 0x27
  /** The high-resolution bit HR of CTRL_REG4_A. */
  const HighResBit: byte := 0x08
  /** MR_REG_M at enable: continuous conversion. */
  const ContinuousMode: byte := 0x00

  datatype Accelerometer = Accelerometer(cal: Calibration.Calib)

  datatype Magnetometer = Magnetometer(cal: Calibration.Calib)

  /** Accelerometer `enable`: one write of 0x27 to CTRL_REG1_A. */
  function AccelEnable(log: Log): (log': Log)
    ensures Extends(log', log) && |log'| == |log| + 1
    ensures log'[|log|] == Write8(AccelAddress, CtrlReg1A, 0x27)
    ensures RegisterValue(log', AccelAddress, CtrlReg1A) == Some(0x27)
    ensures forall d, r :: (d != AccelAddress || r != CtrlReg1A) ==> RegisterValue(log', d, r) == RegisterValue(log, d, r)
  {
    Write(log, AccelAddress, CtrlReg1A, AccelEnableByte)
  }

  /** `set_res`: HR set (0x08) for high resolution, cleared (0x00) otherwise. */
  function SetResolution(log: Log, hires: bool): (log': Log)
    ensures Extends(log', log) && |log'| == |log| + 1
    ensures log'[|log|] == Write8(AccelAddress, CtrlReg4A, if hires then 0x08 else 0x00)
    ensures RegisterValue(log', AccelAddress, CtrlReg4A) == Some(if hires then 0x08 else 0x00)
    ensures forall d, r :: (d != AccelAddress || r != CtrlReg4A) ==> RegisterValue(log', d, r) == RegisterValue(log, d, r)
  {
    if hires then Write(log, AccelAddress, CtrlReg4A, HighResBit)
    else Write(log, AccelAddress, CtrlReg4A, 0)
  }

  /** The accelerometer constructor: `enable`, zero bias and variance, then `set_res`. */
  function NewAccelerometer(log: Log, hires: bool): (r: (Accelerometer, Log))
    ensures r.0.cal == Calibration.Uncalibrated
    ensures Extends(r.1, log) && |r.1| == |log| + 2
    ensures r.1[|log|] == Write8(AccelAddress, CtrlReg1A, 0x27)
    ensures r.1[|log| + 1] == Write8(AccelAddress, CtrlReg4A, if hires then 0x08 else 0x00)
    ensures RegisterValue(r.1, AccelAddress, CtrlReg1A) == Some(0x27)
    ensures RegisterValue(r.1, AccelAddress, CtrlReg4A) == Some(if hires then 0x08 else 0x00)
    ensures forall d, g :: (d != AccelAddress || (g != CtrlReg1A && g != CtrlReg4A)) ==> RegisterValue(r.1, d, g) == RegisterValue(log, d, g)
  {
    (Accelerometer(Calibration.Uncalibrated), SetResolution(AccelEnable(log), hires))
  }

  /** Python's `v >> 4` on an int: floor division by 16 (Dafny's `/` floors for a positive divisor). */
  function Shift4(v: int): (r: int)
    ensures 16 * r <= v < 16 * r + 16
    ensures IsInt16(v) ==> -2048 <= r <= 2047
  {
    v / 16
  }

  /**
   Accelerometer `read`: a 6-byte burst from OUT_X_L_A with the
   auto-increment bit, decoded little-endian, each axis shifted right by 4
   to its 12-bit value. No bias is applied.
   */
  function AccelRead(a: Accelerometer, log: Log, raw: seq<byte>): (e: Effect<Triple>)
    ensures e.log == log + [ReadList(AccelAddress, 0xA8, 6)]
    ensures e.result.Ok? <==> |raw| == 6
    ensures e.result.Ok? ==>
      var t := Unpack3(raw, LittleEndian).value;
      && 16 * e.result.value.x <= t.x < 16 * e.result.value.x + 16
      && 16 * e.result.value.y <= t.y < 16 * e.result.value.y + 16
      && 16 * e.result.value.z <= t.z < 16 * e.result.value.z + 16
    ensures e.result.Ok? ==> Is12Bit(e.result.value)
  {
    var log' := Read(log, AccelAddress, OutXLA + AutoIncrement, 6);
    match Unpack3(raw, LittleEndian)
    case Err(err) => Effect(Err(err), log')
    case Ok(t) => Effect(Ok(Triple(Shift4(t.x), Shift4(t.y), Shift4(t.z))), log')
  }

  predicate Is12Bit(t: Triple)
  {
    -2048 <= t.x <= 2047 && -2048 <= t.y <= 2047 && -2048 <= t.z <= 2047
  }

  /** The accelerometer reading depends only on the bytes read, never on its calibration. */
  lemma AccelReadIgnoresCalibration(a1: Accelerometer, a2: Accelerometer, log: Log, raw: seq<byte>)
    ensures AccelRead(a1, log, raw) == AccelRead(a2, log, raw)
  {
  }

  /** Magnetometer `enable`: one write of 0x00 (continuous conversion) to MR_REG_M. */
  function MagEnable(log: Log): (log': Log)
    ensures Extends(log', log) && |log'| == |log| + 1
    ensures log'[|log|] == Write8(MagAddress, MrRegM, 0x00)
    ensures RegisterValue(log', MagAddress, MrRegM) == Some(0x00)
    ensures forall d, r :: (d != MagAddress || r != MrRegM) ==> RegisterValue(log', d, r) == RegisterValue(log, d, r)
  {
    Write(log, MagAddress, MrRegM, ContinuousMode)
  }

  /** The magnetometer constructor: `enable`, with zero bias and variance. */
  function NewMagnetometer(log: Log): (r: (Magnetometer, Log))
    ensures r.0.cal == Calibration.Uncalibrated
    ensures Extends(r.1, log) && |r.1| == |log| + 1
    ensures r.1[|log|] == Write8(MagAddress, MrRegM, 0x00)
    ensures RegisterValue(r.1, MagAddress, MrRegM) == Some(0x00)
    ensures forall d, g :: (d != MagAddress || g != MrRegM) ==> RegisterValue(r.1, d, g) == RegisterValue(log, d, g)
  {
    (Magnetometer(Calibration.Uncalibrated), MagEnable(log))
  }

  /**
   Magnetometer `read`: a 6-byte burst from OUT_X_H_M, which has no
   auto-increment bit, decoded big-endian. No bias is applied.
   */
  function MagRead(m: Magnetometer, log: Log, raw: seq<byte>): (e: Effect<Triple>)
    ensures e.log == log + [ReadList(MagAddress, 0x03, 6)]
    ensures e.result.Ok? <==> |raw| == 6
    ensures e.result.Ok? ==> IsInt16Triple(e.result.value)
    ensures e.result.Ok? ==> Pack3(e.result.value, BigEndian) == raw
  {
    var log' := Read(log, MagAddress, OutXHM, 6);
    match Unpack3(raw, BigEndian)
    case Err(err) => Effect(Err(err), log')
    case Ok(t) =>
      PackUnpack(raw, BigEndian);
      Effect(Ok(t), log')
  }

  /** The gain settings `set_mag_gain` documents. */
  datatype MagGain = Gain1_3 | Gain1_9 | Gain2_5 | Gain4_0 | Gain4_7 | Gain5_6 | Gain8_1

  /** The `LSM303_MAGGAIN_*` constants: the GN field, bits 5-7 of CRB_REG_M. */
  function GainByte(g: MagGain): byte
  {
    match g
    case Gain1_3 => 0x20
    case Gain1_9 => 0x40
    case Gain2_5 => 0x60
    case Gain4_0 => 0x80
    case Gain4_7 => 0xA0
    case Gain5_6 => 0xC0
    case Gain8_1 => 0xE0
  }

  /** The gain bytes are exactly the nonzero multiples of 0x20 up to 0xE0, one per gain. */
  lemma GainBytes(b: byte)
    ensures (exists g :: GainByte(g) == b) <==> (b % 0x20 == 0 && 0x20 <= b <= 0xE0)
    ensures forall g1, g2 :: GainByte(g1) == GainByte(g2) ==> g1 == g2
  {
    if b % 0x20 == 0 && 0x20 <= b <= 0xE0 {
      var g := if b == 0x20 then Gain1_3 else if b == 0x40 then Gain1_9 else if b == 0x60 then Gain2_5
        else if b == 0x80 then Gain4_0 else if b == 0xA0 then Gain4_7 else if b == 0xC0 then Gain5_6 else Gain8_1;
      assert GainByte(g) == b;
    }
  }

  /** `set_mag_gain(gain)`: writes the given byte to CRB_REG_M as it is. */
  function SetMagGain(log: Log, gain: byte): (log': Log)
    ensures Extends(log', log) && |log'| == |log| + 1
    ensures log'[|log|] == Write8(MagAddress, CrbRegM, gain)
    ensures RegisterValue(log', MagAddress, CrbRegM) == Some(gain)
    ensures forall d, r :: (d != MagAddress || r != CrbRegM) ==> RegisterValue(log', d, r) == RegisterValue(log, d, r)
  {
    Write(log, MagAddress, CrbRegM, gain)
  }

  /** The gain `set_mag_gain` uses when called without an argument: ±1.3 gauss. */
  const DefaultGain: MagGain := Gain1_3

  /** `set_mag_gain()` with no argument: CRB_REG_M is set to the default gain byte, 0x20. */
  function SetDefaultMagGain(log: Log): (log': Log)
    ensures Extends(log', log) && |log'| == |log| + 1
    ensures log'[|log|] == Write8(MagAddress, CrbRegM, 0x20)
    ensures RegisterValue(log', MagAddress, CrbRegM) == Some(0x20)
    ensures forall d, r :: (d != MagAddress || r != CrbRegM) ==> RegisterValue(log', d, r) == RegisterValue(log, d, r)
  {
    SetMagGain(log, GainByte(DefaultGain))
  }
}
